=== FILE: README.md ===
# pkg-testing-tool: configuration-space exploration, modelled in Dafny

`pkg-testing-tool` builds a Gentoo package many times, under different USE-flag
combinations, to find builds and tests that fail only under some configurations.
This project models the part that chooses what to build:

- **Flag normalisation** (`UseFlags`). The IUSE tokens lose their `+`/`-`
  default markers. Flags that should not be shuffled are dropped: ignored
  prefixes such as `python_targets_`, and ignored names such as `test`. The rest
  is sorted the way Python's `sorted` orders `str` values.
- **Index ↔ assignment codec** (`Codec`). Bit `k` of an integer index switches
  `iuse[k]` on (bare name) or off (`-name`). A decoder reads an assignment back
  into its index. The two are inverse on `[0, 2^n)`.
- **Combination sampler** (`Sampler`).
  - When `2^n <= max_use_combinations`, every index is tried in ascending order.
  - Otherwise indices come from an arbitrary draw stream. Repeats are skipped
    without evaluation. Sampling stops at `max` valid assignments, or once every
    index has been checked.
  - The REQUIRED_USE check (`portage.dep.check_required_use`) is an
    uninterpreted function parameter `valid`. It is applied to the space-joined
    constraint text and the candidate assignment.
- **Job planner** (`Planner`). `test_package` turns the metadata (`has_tests`,
  IUSE) and the policy (`--test-feature-scope`, `--append-required-use`,
  `--max-use-combinations`) into an ordered list of (flags, test toggle) jobs.
- **Runner** (`Runner`). It models the text `run_testing` writes and records:
  - the FEATURES value;
  - the `env`, `package.env` and `package.use` override lines;
  - the `use_flags` string of a job's result.

  It also models how `pkg_testing_tool` picks the failures and the exit status.

`Text` holds Python's `" ".join`, `str.split(" ")`, `startswith` and string
ordering. `Util` holds an `Option` type, subsequences and pigeonhole facts about
duplicate-free sequences.

With `--test-feature-scope always`, combination builds enable tests only when
the package defines a test phase (main.py:197-200).

## Model

| member | source | states |
|---|---|---|
| UseFlags.Strip | src/pkg_testing_tool/use.py:11-20 | same length and order; a flag that began with `+` or `-` is that marker followed by its result, and every other flag is unchanged |
| UseFlags.Filter | src/pkg_testing_tool/use.py:23-55 | the result is an order-preserving subsequence of the input; each kept flag has no ignored prefix and is not an ignored name; each shuffleable flag keeps its full multiplicity and every other flag is gone |
| UseFlags.SortFlags | src/pkg_testing_tool/use.py:63 | the result is ordered by Python's string order and is a permutation of the input |
| UseFlags.SortedPermutationUnique | src/pkg_testing_tool/use.py:63 | two ordered permutations of one list are equal, so the model's sort is exactly Python's `sorted` |
| UseFlags.PackageFlags | src/pkg_testing_tool/use.py:58-70 | the IUSE handed on is sorted and holds exactly the shuffleable stripped flags, with their multiplicities; the REQUIRED_USE tokens pass through unchanged |
| Codec.Toggles | src/pkg_testing_tool/use.py:73-84 | one token per flag; token `k` is `iuse[k]` when bit `k` of the index is set and `-` + `iuse[k]` otherwise |
| Codec.DecodeEncode | src/pkg_testing_tool/use.py:76-82 | for every index below `2^n`, decoding its assignment gives the index back |
| Codec.EncodeDecode | src/pkg_testing_tool/use.py:76-82 | every on/off assignment of the IUSE list decodes to an index below `2^n` whose encoding is that assignment |
| Codec.TogglesInjective | src/pkg_testing_tool/use.py:76-82 | distinct indices below `2^n` give distinct assignments |
| Codec.OffTokensAreMarked | src/pkg_testing_tool/use.py:77-80 | when no flag name starts with `-`, a token starts with `-` exactly when its bit is clear |
| Sampler.KeepMeaning | src/pkg_testing_tool/use.py:104-113 | every kept combination is an assignment of the IUSE list that passes REQUIRED_USE and decodes to a tried index; every tried index whose assignment passes is kept; never more results than indices tried |
| Sampler.KeepAscending | src/pkg_testing_tool/use.py:109-113 | indices tried in ascending order keep their assignments in ascending index order |
| Sampler.KeepDistinct | src/pkg_testing_tool/use.py:99-107 | indices tried at most once give results without duplicates |
| Sampler.KeepWholeSpace | src/pkg_testing_tool/use.py:108-113 | over the whole space, the kept list holds exactly the passing assignments of `0..2^n-1`, in ascending index order, at most `2^n` of them |
| Sampler.Exhaustive | src/pkg_testing_tool/use.py:108-113 | the loop keeps, in order, the passing assignments of every index `0..2^n-1` |
| Sampler.DrawStep | src/pkg_testing_tool/use.py:97-107 | a draw already checked changes nothing; a new one joins the checked set, is appended to the evaluated list and keeps its assignment exactly when it passes; the list stays the first occurrences of the draws so far |
| Sampler.DrawLoop | src/pkg_testing_tool/use.py:94-107 | the evaluated indices are the drawn ones in order of first draw, each once; the kept list is their passing assignments in that order; at most `max` results; the guard (fewer than `max` kept, not every index checked) held before every draw used, and the loop ends only when it fails or the stream is used up |
| Sampler.DrawsUsedFirstStop | src/pkg_testing_tool/use.py:96 | a run that passed the guard before each draw it used and stopped where the guard fails (or at the end of the stream) used exactly `DrawsUsed` draws, the first draw at which the guard fails |
| Sampler.SampleIsFirstStop | src/pkg_testing_tool/use.py:94-107 | a run that stopped as the loop does used exactly `DrawsUsed` draws, the first at which the guard fails, so its kept list is the passing assignments of the distinct draws up to that stop, in first-draw order: the stream alone determines the sample |
| Sampler.SampleCoverage | src/pkg_testing_tool/use.py:96 | when sampling stops, the evaluated indices are exactly the drawn ones, never more than `2^n`; short of the whole space means `max` results or an exhausted stream; a stream covering the space cannot run out first |
| Sampler.RandomSample | src/pkg_testing_tool/use.py:92-107 | evaluates the drawn indices in order of first draw, each exactly once; keeps their passing assignments in that order; at most `max` results; the loop guard held before every draw used, and the run stops early only at `max` results or with all `2^n` indices checked, so `Sampler.SampleIsFirstStop` applies; a stream that covers every index always reaches one of the two; a fully checked domain means every index was evaluated |
| Sampler.SampleReach | src/pkg_testing_tool/use.py:96-107 | a stopped run keeps only passing assignments of drawn indices; short of `max` results it keeps every drawn passing one, and every passing one of the space when the stream covers it |
| Sampler.RandomCombinations | src/pkg_testing_tool/use.py:92-107 | random-mode results are passing assignments of drawn indices, no two alike, at most `max`; short of `max` they include every drawn passing one, and every passing one of the space when the stream covers it |
| Sampler.UseCombinations | src/pkg_testing_tool/use.py:87-115 | every result is an assignment of the IUSE list that passes REQUIRED_USE; no duplicates; at most `max` results; in exhaustive mode the results are exactly the passing assignments, in ascending index order; in random mode every result decodes to a drawn index, short of `max` results every drawn passing assignment is among them, and a stream covering the space gives exactly the passing assignments |
| Planner.PackageMetadata | src/pkg_testing_tool/main.py:96-114 | atom and `cp` are kept; `has_tests` holds exactly when `test` is among the defined phases; IUSE is sorted and holds exactly the shuffleable stripped flags, each as many times as among the stripped tokens; REQUIRED_USE is passed through |
| Planner.AppendRequiredUse | src/pkg_testing_tool/main.py:188-189 | a non-empty extra constraint is appended, so the evaluated text is the package's constraint, a space, then the extra one (or only the extra one); an absent or empty one changes nothing |
| Planner.PlanBuildsEachCombination | src/pkg_testing_tool/main.py:196-225 | reading the flag overrides back out of the planned jobs gives the sampled combinations, each once and in sampler order |
| Planner.PlanDecisionTable | src/pkg_testing_tool/main.py:196-236 | job count is 1 without combinations, else one per combination plus one for `once` with tests; a default-flags job only comes last; combination jobs test exactly when `has_tests` and scope is `always`; the default-flags job tests exactly when `has_tests` and scope is not `never` |
| Planner.PlanTestCoverage | src/pkg_testing_tool/main.py:196-236 | some job enables tests exactly when the package has a test phase and scope is not `never`; no job enables tests for a package without one |
| Planner.PerCombinationFacts | src/pkg_testing_tool/main.py:203-216 | one job per combination, in order, each with the shared test toggle |
| Planner.OverrideFlagsAppend | src/pkg_testing_tool/main.py:214-225 | the overrides of two job lists, one after the other, are the overrides of each in turn |
| Planner.PlanJobsFacts | src/pkg_testing_tool/main.py:196-236 | the builds read back from the plan are the combinations; one job per combination plus one default-flags job for `once` with tests, or a lone default job without combinations; the default job comes last; test toggles follow the decision table |
| Planner.PackageCombinations | src/pkg_testing_tool/main.py:188-194 | no combinations without IUSE; otherwise the sampler's guarantees against the package's REQUIRED_USE with the extra constraint appended, including, in random mode, that every combination decodes to a drawn index |
| Planner.PlannedJobsFollowTable | src/pkg_testing_tool/main.py:196-236 | a job list that is the plan of its own builds has one job per build, plus the default-flags job for `once` with tests, or a lone default job; the default job comes last and tests unless scope is `never` or there are no tests; build jobs test exactly for `always` on a package with tests |
| Planner.TestPackage | src/pkg_testing_tool/main.py:183-238 | at least one job and at most `max + 1`; the jobs are exactly the plan of the combinations they build, so `Planner.PlannedJobsFollowTable` gives their count, order and toggles; every overriding job is a REQUIRED_USE-passing assignment and tests exactly for `always` on a package with tests; no combination is built twice; in exhaustive mode the builds are exactly the passing assignments in ascending index order; in random mode every build decodes to a drawn index, and short of `max` builds every drawn passing assignment is built; tests run somewhere exactly when the package has them and scope is not `never`; a package without IUSE gets one default-flags job |
| Runner.ComposeFeaturesWords | src/pkg_testing_tool/main.py:131-136 | split on spaces, FEATURES is the inherited words followed by the fixed features, or the fixed features alone when nothing is inherited |
| Runner.PackageUseLine | src/pkg_testing_tool/main.py:154-160 | a `package.use` line exists exactly when the job overrides flags |
| Runner.PackageUseLineParses | src/pkg_testing_tool/main.py:154-160 | the line is newline-terminated; its words are the scope prefix followed by exactly the job's flags; the prefix is `*/*` exactly for the global scope (or an atom spelled `*/*`) |
| Runner.JobOverrides | src/pkg_testing_tool/main.py:144-160 | the `env` file is non-empty exactly for a test job, and then is the `FEATURES="test"` line; `package.use` is written exactly when flags are overridden, and is the job's `package.use` line; `package.env` starts with the package's `cp` |
| Runner.JobOverridesParse | src/pkg_testing_tool/main.py:149-160 | the `package.env` line is newline-terminated and its words are exactly the `cp` and the `env` file name; the `package.use` line's words are the scope atom and then exactly the job's flags |
| Runner.EmergeCommand | src/pkg_testing_tool/main.py:120-127 | eleven words starting with `emerge`; `--usepkg-exclude` is followed by the package's `cp`; the atom is the last word |
| Runner.RecordedEmergeCommand | src/pkg_testing_tool/main.py:120-173 | for a space-free `cp` and atom, the recorded `emerge_cmdline` splits back into exactly the command, whatever the job: `--usepkg-exclude` then `cp`, the atom last, and every other word the same for every package |
| Runner.RecordedUseFlags | src/pkg_testing_tool/main.py:168-180 | a result's `use_flags` is empty for a default run and splits back into exactly the job's flags otherwise; the exit code and test toggle are the build's |
| Runner.Execute | src/pkg_testing_tool/main.py:214-236 | one result per job, in job order, each carrying that build's exit code |
| Runner.Failures | src/pkg_testing_tool/main.py:265-268 | the failures are an order-preserving subsequence of the results; each has a non-zero exit code; every result with a non-zero exit code is among them |
| Runner.FailuresMultiplicity | src/pkg_testing_tool/main.py:265-268 | a failed result appears among the failures exactly as often as among the results; a successful one never does |
| Runner.FailuresAppend | src/pkg_testing_tool/main.py:260-268 | the failures of results gathered package after package are each package's failures in turn |
| Runner.ExitStatus | src/pkg_testing_tool/main.py:274-285 | the status is 0 or 1, and 1 exactly when some build exited non-zero |
| Runner.ExitStatusAppend | src/pkg_testing_tool/main.py:260-283 | the run fails exactly when some package's batch of results has a failure |
| Runner.MissingDirectory | src/pkg_testing_tool/main.py:15-19 | no directory is reported exactly when all needed ones exist; otherwise the report names the first needed directory that is missing |
| Runner.RunExitStatus | src/pkg_testing_tool/main.py:240-283 | the run exits with 0 or 1, and with 0 exactly when all five override directories exist and every build exited 0 |

## Left out

- Portage queries (`aux_get`, `dep_getcpv`, `pkgsplit`, `portage.settings`): foreign library calls. The IUSE, REQUIRED_USE and DEFINED_PHASES tokens are inputs, already split on whitespace.
- `check_required_use` is an uninterpreted `valid(constraint, flags)`. Its third argument (`iuse_match_always_true`) always answers true, so it is dropped. Errors portage raises on malformed REQUIRED_USE text are not modelled.
- `random.seed` / `random.randint`: an arbitrary draw stream with every draw below `2^n`. Uniformity is not modelled.
- `subprocess.run` of emerge and the environment copy: the exit code of each build is an input to `Runner.Execute`.
- Temporary files under `/etc/portage`, umask/chmod and `ExitStack` cleanup: file I/O. Only the text written and the missing-directory check are modelled.
- The `package.accept_keywords` and `package.unmask` lines that `pkg_testing_tool` writes before testing: file I/O that does not affect which builds run.
- argparse handling (including the `--` extra-argument check and the help-and-exit on no arguments), `datetime` timestamps, the JSON report, and console output (`einfo`/`eerror` and the failure summary lines): I/O.
- UseFlags.Strip: requires every flag to be non-empty. Python's `flag[0]` raises on an empty flag, and whitespace splitting never produces one.
- Sampler.RandomSample: a finite stream can run out before `max` results or full coverage. In that case the model also stops. The source keeps drawing, which is the case covered by the "stream covers every index" clause.
- Sampler.UseCombinations: does not state which drawn assignments random mode keeps once `max` is reached, nor their order. `Sampler.SampleIsFirstStop` states both for the loop's result, in terms of the recursive `Sampler.DrawsUsed`; the method's own contract speaks only of the draws themselves.
- Runner.RecordedEmergeCommand: requires a `cp` and atom without spaces, as portage names are.
- Runner.JobOverridesParse: requires a `cp`, `env` file name, atom and flags without spaces, as portage names are.
- Runner.PackageUseLineParses: requires an atom and flags without spaces, as portage atoms and USE flags are.
- Runner.ComposeFeaturesWords: `FEATURES` is read from the inherited environment, which is passed in as an optional string.

=== FILE: codec.dfy ===
/** The codec between an integer index and an on/off assignment of the IUSE
    list (`get_use_flags_toggles` in src/pkg_testing_tool/use.py): bit `k` of
    the index switches `iuse[k]` on (bare name) or off (`-` prefix). */
module Codec {
  import opened Text

  function Pow2(n: nat): (r: nat)
    ensures r >= 1
  {
    if n == 0 then 1 else 2 * Pow2(n - 1)
  }

  /** Bit `k` of `index`, i.e. `(2**k) & index != 0`. */
  predicate Bit(index: nat, k: nat) {
    if k == 0 then index % 2 == 1 else Bit(index / 2, k - 1)
  }

  /** The token for one flag: the bare name when on, `-name` when off. */
  function Toggle(flag: string, on: bool): string {
    if on then flag else "-" + flag
  }

  /** Each token is the flag at the same position, switched on or off. */
  predicate IsAssignment(tokens: seq<string>, iuse: seq<string>) {
    |tokens| == |iuse| &&
    forall k :: 0 <= k < |iuse| ==> tokens[k] == iuse[k] || tokens[k] == "-" + iuse[k]
  }

  /** `get_use_flags_toggles(index, iuse)`. */
  function Toggles(index: nat, iuse: seq<string>): (r: seq<string>)
    ensures |r| == |iuse|
    ensures forall k :: 0 <= k < |iuse| ==> r[k] == Toggle(iuse[k], Bit(index, k))
  {
    if |iuse| == 0 then []
    else [Toggle(iuse[0], index % 2 == 1)] + Toggles(index / 2, iuse[1..])
  }

  /** Reads an assignment back into its index: a token equal to its flag
      contributes that flag's bit (tokens past the end of `iuse` are ignored). */
  function IndexOf(tokens: seq<string>, iuse: seq<string>): nat {
    if |iuse| == 0 || |tokens| == 0 then 0
    else (if tokens[0] == iuse[0] then 1 else 0) + 2 * IndexOf(tokens[1..], iuse[1..])
  }

  lemma OffTokenDiffers(flag: string)
    ensures "-" + flag != flag
  {
    assert |"-" + flag| != |flag|;
  }

  /** Decoding an encoded index gives the index back. */
  lemma {:induction false} DecodeEncode(index: nat, iuse: seq<string>)
    requires index < Pow2(|iuse|)
    ensures IndexOf(Toggles(index, iuse), iuse) == index
  {
    if |iuse| > 0 {
      var t := Toggles(index, iuse);
      OffTokenDiffers(iuse[0]);
      assert t[1..] == Toggles(index / 2, iuse[1..]);
      DecodeEncode(index / 2, iuse[1..]);
    }
  }

  /** Encoding the index of an assignment gives the assignment back. */
  lemma {:induction false} EncodeDecode(tokens: seq<string>, iuse: seq<string>)
    requires IsAssignment(tokens, iuse)
    ensures IndexOf(tokens, iuse) < Pow2(|iuse|)
    ensures Toggles(IndexOf(tokens, iuse), iuse) == tokens
  {
    if |iuse| > 0 {
      assert IsAssignment(tokens[1..], iuse[1..]) by {
        forall k | 0 <= k < |iuse[1..]|
          ensures tokens[1..][k] == iuse[1..][k] || tokens[1..][k] == "-" + iuse[1..][k]
        {
          assert tokens[k + 1] == iuse[k + 1] || tokens[k + 1] == "-" + iuse[k + 1];
        }
      }
      EncodeDecode(tokens[1..], iuse[1..]);
      var i := IndexOf(tokens, iuse);
      var rest := IndexOf(tokens[1..], iuse[1..]);
      var on := tokens[0] == iuse[0];
      assert i == (if on then 1 else 0) + 2 * rest;
      assert i / 2 == rest && (i % 2 == 1) == on;
      assert i < Pow2(|iuse|) by {
        assert Pow2(|iuse|) == 2 * Pow2(|iuse[1..]|);
      }
      OffTokenDiffers(iuse[0]);
      assert Toggle(iuse[0], on) == tokens[0];
      assert Toggles(i, iuse) == [Toggle(iuse[0], on)] + Toggles(rest, iuse[1..]);
      assert tokens == [tokens[0]] + tokens[1..];
    }
  }

  /** Distinct indices of the domain give distinct assignments. */
  lemma TogglesInjective(a: nat, b: nat, iuse: seq<string>)
    requires a < Pow2(|iuse|) && b < Pow2(|iuse|)
    requires Toggles(a, iuse) == Toggles(b, iuse)
    ensures a == b
  {
    DecodeEncode(a, iuse);
    DecodeEncode(b, iuse);
  }

  /** When no flag name itself starts with `-`, a token is off exactly when it
      carries the `-` marker, which is how the constraint evaluator reads it. */
  lemma OffTokensAreMarked(index: nat, iuse: seq<string>)
    requires forall k :: 0 <= k < |iuse| ==> !StartsWith(iuse[k], "-")
    ensures forall k :: 0 <= k < |iuse| ==>
      (StartsWith(Toggles(index, iuse)[k], "-") <==> !Bit(index, k))
  {
    forall k | 0 <= k < |iuse|
      ensures StartsWith(Toggles(index, iuse)[k], "-") <==> !Bit(index, k)
    {
      assert ("-" + iuse[k])[..1] == "-";
    }
  }
}

=== FILE: planner.dfy ===
/** The job planner of `test_package` (src/pkg_testing_tool/main.py): one
    package's metadata and the command-line policy become an ordered list of
    builds, each a USE-flag override (empty for the package defaults) and
    whether FEATURES=test is switched on for it. */
module Planner {
  import opened Util
  import opened Text
  import opened UseFlags
  import opened Codec
  import opened Sampler

  /** `--test-feature-scope`. */
  datatype TestFeatureScope = Once | Always | Never

  /** `--use-flags-scope`: the package's own atom, or every package. */
  datatype UseFlagsScope = Local | Global

  /** The fields of `get_package_metadata` the planner and the runner read. */
  datatype Metadata = Metadata(atom: string, cp: string, hasTests: bool, iuse: seq<string>, ruse: seq<string>)

  /** The command-line policy that shapes a package's jobs. */
  datatype Args = Args(
    appendRequiredUse: Option<string>,
    maxUseCombinations: int,
    useFlagsScope: UseFlagsScope,
    testFeatureScope: TestFeatureScope)

  /** One build: the USE-flag override (`[]` = the package defaults) and the test toggle. */
  datatype Job = Job(flags: seq<string>, testFeature: bool)

  /** `get_package_metadata` past the portage queries: the IUSE and
      REQUIRED_USE tokens and the DEFINED_PHASES list are given. */
  function PackageMetadata(atom: string, cp: string, iuseTokens: seq<string>, ruseTokens: seq<string>, phases: seq<string>): (m: Metadata)
    requires forall k :: 0 <= k < |iuseTokens| ==> |iuseTokens[k]| > 0
    ensures m.atom == atom && m.cp == cp
    ensures m.hasTests <==> "test" in phases
    ensures Sorted(m.iuse)
    ensures forall k :: 0 <= k < |m.iuse| ==> Shuffleable(m.iuse[k])
    ensures forall x :: x in m.iuse <==> Shuffleable(x) && x in Strip(iuseTokens)
    ensures forall x :: multiset(m.iuse)[x] == if Shuffleable(x) then multiset(Strip(iuseTokens))[x] else 0
    ensures m.ruse == ruseTokens
  {
    var flags := PackageFlags(iuseTokens, ruseTokens);
    assert forall x :: x in flags.0 <==> x in multiset(flags.0);
    assert forall x :: x in Strip(iuseTokens) <==> x in multiset(Strip(iuseTokens));
    Metadata(atom, cp, "test" in phases, flags.0, flags.1)
  }

  /** `--append-required-use`: a non-empty extra constraint is appended to the
      package's REQUIRED_USE tokens, so the text handed to the evaluator is the
      package's constraint followed by the extra one. */
  function AppendRequiredUse(ruse: seq<string>, extra: Option<string>): (r: seq<string>)
    ensures extra.Some? && extra.value != "" ==>
      r == ruse + [extra.value] &&
      Join(r) == (if |ruse| == 0 then extra.value else Join(ruse) + " " + extra.value)
    ensures !(extra.Some? && extra.value != "") ==> r == ruse
  {
    match extra
    case Some(e) =>
      if e != "" then JoinAppend(ruse, e); ruse + [e] else ruse
    case None => ruse
  }

  /** One job per combination, in order, all with the same test toggle. */
  function PerCombination(combos: seq<seq<string>>, testFeature: bool): seq<Job> {
    if |combos| == 0 then []
    else [Job(combos[0], testFeature)] + PerCombination(combos[1..], testFeature)
  }

  /** The jobs of `test_package` for the sampled combinations (`[]` when the
      package has no IUSE or no combination passed). */
  function PlanJobs(combos: seq<seq<string>>, hasTests: bool, scope: TestFeatureScope): seq<Job> {
    if |combos| > 0 then
      PerCombination(combos, hasTests && scope == Always) +
      (if hasTests && scope == Once then [Job([], true)] else [])
    else if !hasTests || scope == Never then [Job([], false)]
    else [Job([], true)]
  }

  /** The overrides of the jobs that set USE flags, in job order. */
  function OverrideFlags(jobs: seq<Job>): seq<seq<string>> {
    if |jobs| == 0 then []
    else (if jobs[0].flags != [] then [jobs[0].flags] else []) + OverrideFlags(jobs[1..])
  }

  lemma {:induction false} OverrideFlagsAppend(a: seq<Job>, b: seq<Job>)
    ensures OverrideFlags(a + b) == OverrideFlags(a) + OverrideFlags(b)
  {
    if |a| > 0 {
      assert (a + b)[1..] == a[1..] + b;
      OverrideFlagsAppend(a[1..], b);
    } else {
      assert a + b == b;
    }
  }

  lemma {:induction false} PerCombinationFacts(combos: seq<seq<string>>, testFeature: bool)
    requires forall k :: 0 <= k < |combos| ==> combos[k] != []
    ensures |PerCombination(combos, testFeature)| == |combos|
    ensures forall k :: 0 <= k < |combos| ==> PerCombination(combos, testFeature)[k] == Job(combos[k], testFeature)
    ensures OverrideFlags(PerCombination(combos, testFeature)) == combos
  {
    if |combos| > 0 {
      var rest := PerCombination(combos[1..], testFeature);
      PerCombinationFacts(combos[1..], testFeature);
      OverrideFlagsAppend([Job(combos[0], testFeature)], rest);
      assert combos == [combos[0]] + combos[1..];
    }
  }

  /** Every combination is built exactly once and in sampler order: reading the
      overrides back out of the plan gives the combinations. */
  lemma PlanBuildsEachCombination(combos: seq<seq<string>>, hasTests: bool, scope: TestFeatureScope)
    requires forall k :: 0 <= k < |combos| ==> combos[k] != []
    ensures OverrideFlags(PlanJobs(combos, hasTests, scope)) == combos
  {
    if |combos| > 0 {
      PerCombinationFacts(combos, hasTests && scope == Always);
      OverrideFlagsAppend(PerCombination(combos, hasTests && scope == Always),
        if hasTests && scope == Once then [Job([], true)] else []);
    }
  }

  /** The decision table of `test_package`: how many jobs there are, which one
      runs with the package's default flags, and which ones enable tests. */
  lemma PlanDecisionTable(combos: seq<seq<string>>, hasTests: bool, scope: TestFeatureScope)
    requires forall k :: 0 <= k < |combos| ==> combos[k] != []
    ensures var jobs := PlanJobs(combos, hasTests, scope);
      && |jobs| == (if |combos| == 0 then 1 else |combos| + (if hasTests && scope == Once then 1 else 0))
      // a run with default flags happens only last, and only without combinations or for 'once'
      && (forall i :: 0 <= i < |jobs| && jobs[i].flags == [] ==> i == |jobs| - 1)
      && ((exists i :: 0 <= i < |jobs| && jobs[i].flags == []) <==> |combos| == 0 || (hasTests && scope == Once))
      // combination runs test only for 'always'; the default run tests unless there is nothing to test
      && (forall i :: 0 <= i < |jobs| && jobs[i].flags != [] ==> (jobs[i].testFeature <==> hasTests && scope == Always))
      && (forall i :: 0 <= i < |jobs| && jobs[i].flags == [] ==> (jobs[i].testFeature <==> hasTests && scope != Never))
  {
    var jobs := PlanJobs(combos, hasTests, scope);
    if |combos| > 0 {
      PerCombinationFacts(combos, hasTests && scope == Always);
      var per := PerCombination(combos, hasTests && scope == Always);
      assert forall i :: 0 <= i < |per| ==> jobs[i] == per[i];
      if hasTests && scope == Once {
        assert jobs[|jobs| - 1].flags == [];
      }
    } else {
      assert jobs[0].flags == [];
    }
  }

  /** The test phase is exercised by some job exactly when the package has one
      and the policy is not 'never'; no job enables tests for a package without. */
  lemma PlanTestCoverage(combos: seq<seq<string>>, hasTests: bool, scope: TestFeatureScope)
    requires forall k :: 0 <= k < |combos| ==> combos[k] != []
    ensures var jobs := PlanJobs(combos, hasTests, scope);
      && ((exists i :: 0 <= i < |jobs| && jobs[i].testFeature) <==> hasTests && scope != Never)
      && (forall i :: 0 <= i < |jobs| && jobs[i].testFeature ==> hasTests)
  {
    var jobs := PlanJobs(combos, hasTests, scope);
    PlanDecisionTable(combos, hasTests, scope);
    if hasTests && scope != Never {
      if |combos| == 0 || scope == Once {
        assert jobs[|jobs| - 1].testFeature;
      } else {
        PerCombinationFacts(combos, true);
        assert jobs[0].testFeature;
      }
    }
  }

  /** The decision table of `test_package`, read off a list of jobs: one job
      per combination built (read back with `OverrideFlags`), plus one
      default-flags job for `once` on a package with tests, or a lone default
      job when nothing is built; the default job comes last and tests unless
      there is nothing to test; combination jobs test exactly for `always` on a
      package with tests; and some job tests exactly when there is something to
      test. */
  predicate DecisionTable(jobs: seq<Job>, hasTests: bool, scope: TestFeatureScope) {
    && |jobs| == (if |OverrideFlags(jobs)| == 0 then 1
       else |OverrideFlags(jobs)| + (if hasTests && scope == Once then 1 else 0))
    && (forall i :: 0 <= i < |jobs| && jobs[i].flags == [] ==>
         i == |jobs| - 1 && (jobs[i].testFeature <==> hasTests && scope != Never))
    && (forall i :: 0 <= i < |jobs| && jobs[i].flags != [] ==>
         (jobs[i].testFeature <==> hasTests && scope == Always))
    && ((exists i :: 0 <= i < |jobs| && jobs[i].testFeature) <==> hasTests && scope != Never)
  }

  /** Everything `test_package` promises about a plan, gathered: the builds
      read back are the combinations, the default-flags job is the only other
      one and comes last, and the test toggles follow the decision table. */
  lemma PlanJobsFacts(combos: seq<seq<string>>, hasTests: bool, scope: TestFeatureScope)
    requires forall k :: 0 <= k < |combos| ==> combos[k] != []
    ensures var jobs := PlanJobs(combos, hasTests, scope);
      && OverrideFlags(jobs) == combos
      && DecisionTable(jobs, hasTests, scope)
      && (forall i :: 0 <= i < |jobs| && jobs[i].flags != [] ==> jobs[i].flags in combos)
  {
    var jobs := PlanJobs(combos, hasTests, scope);
    PlanBuildsEachCombination(combos, hasTests, scope);
    PlanDecisionTable(combos, hasTests, scope);
    PlanTestCoverage(combos, hasTests, scope);
    if |combos| > 0 {
      var toggle := hasTests && scope == Always;
      PerCombinationFacts(combos, toggle);
      var per := PerCombination(combos, toggle);
      forall i | |combos| <= i < |jobs|
        ensures jobs[i].flags == []
      {
        assert jobs[i] == Job([], true);
      }
      forall i | 0 <= i < |combos|
        ensures jobs[i] == per[i] && combos[i] in combos
      {
      }
    }
  }

  /** Only overriding jobs are read back, so every override is non-empty. */
  lemma {:induction false} OverrideFlagsNonEmpty(jobs: seq<Job>)
    ensures forall k :: 0 <= k < |OverrideFlags(jobs)| ==> OverrideFlags(jobs)[k] != []
  {
    if |jobs| > 0 {
      OverrideFlagsNonEmpty(jobs[1..]);
    }
  }

  /** A job list that is the plan of its own builds follows the decision table. */
  lemma PlannedJobsFollowTable(jobs: seq<Job>, hasTests: bool, scope: TestFeatureScope)
    requires jobs == PlanJobs(OverrideFlags(jobs), hasTests, scope)
    ensures DecisionTable(jobs, hasTests, scope)
  {
    OverrideFlagsNonEmpty(jobs);
    PlanJobsFacts(OverrideFlags(jobs), hasTests, scope);
  }

  /** The REQUIRED_USE text a package's combinations are checked against:
      the package's constraint with any extra one appended. */
  function RequiredUseText(meta: Metadata, args: Args): string {
    Join(AppendRequiredUse(meta.ruse, args.appendRequiredUse))
  }

  /** The combinations `test_package` builds: the sampler's, for a package
      with IUSE, and none otherwise. */
  method PackageCombinations(meta: Metadata, args: Args, valid: Constraint, draws: seq<nat>) returns (combos: seq<seq<string>>)
    requires forall k :: 0 <= k < |draws| ==> draws[k] < Pow2(|meta.iuse|)
    ensures |meta.iuse| == 0 ==> combos == []
    ensures forall c :: c in combos ==> c != [] && IsAssignment(c, meta.iuse) && valid(RequiredUseText(meta, args), c)
    ensures NoDuplicates(combos)
    ensures |combos| <= Cap(args.maxUseCombinations)
    ensures |meta.iuse| > 0 && Pow2(|meta.iuse|) <= args.maxUseCombinations ==>
      (forall i :: 0 <= i < Pow2(|meta.iuse|) ==>
        (valid(RequiredUseText(meta, args), Toggles(i, meta.iuse)) <==> Toggles(i, meta.iuse) in combos)) &&
      (forall j, k :: 0 <= j < k < |combos| ==> IndexOf(combos[j], meta.iuse) < IndexOf(combos[k], meta.iuse))
    ensures |meta.iuse| > 0 && Pow2(|meta.iuse|) > args.maxUseCombinations ==>
      (|combos| == Cap(args.maxUseCombinations) ||
       forall k :: 0 <= k < |draws| && valid(RequiredUseText(meta, args), Toggles(draws[k], meta.iuse)) ==>
         Toggles(draws[k], meta.iuse) in combos)
    ensures |meta.iuse| > 0 && Pow2(|meta.iuse|) > args.maxUseCombinations ==>
      forall c :: c in combos ==> IndexOf(c, meta.iuse) in draws
  {
    var ruse := AppendRequiredUse(meta.ruse, args.appendRequiredUse);
    if |meta.iuse| > 0 {
      combos := UseCombinations(valid, meta.iuse, ruse, args.maxUseCombinations, draws);
    } else {
      combos := [];
    }
  }

  /** `test_package` up to running the builds: the extra constraint is
      appended, the sampler runs only for a package with IUSE, and the jobs are
      planned from its combinations. The combinations built are read back with
      `OverrideFlags`. */
  method TestPackage(meta: Metadata, args: Args, valid: Constraint, draws: seq<nat>) returns (jobs: seq<Job>)
    requires forall k :: 0 <= k < |draws| ==> draws[k] < Pow2(|meta.iuse|)
    ensures 1 <= |jobs| <= Cap(args.maxUseCombinations) + 1
    ensures jobs == PlanJobs(OverrideFlags(jobs), meta.hasTests, args.testFeatureScope)
    ensures forall i :: 0 <= i < |jobs| && jobs[i].flags != [] ==>
      && IsAssignment(jobs[i].flags, meta.iuse)
      && valid(RequiredUseText(meta, args), jobs[i].flags)
      && (jobs[i].testFeature <==> meta.hasTests && args.testFeatureScope == Always)
    ensures (exists i :: 0 <= i < |jobs| && jobs[i].testFeature) <==>
      meta.hasTests && args.testFeatureScope != Never
    ensures NoDuplicates(OverrideFlags(jobs))
    ensures |meta.iuse| == 0 ==>
      jobs == [Job([], meta.hasTests && args.testFeatureScope != Never)]
    ensures |meta.iuse| > 0 && Pow2(|meta.iuse|) <= args.maxUseCombinations ==>
      (forall i :: 0 <= i < Pow2(|meta.iuse|) ==>
        (valid(RequiredUseText(meta, args), Toggles(i, meta.iuse)) <==> Toggles(i, meta.iuse) in OverrideFlags(jobs))) &&
      (forall j, k :: 0 <= j < k < |OverrideFlags(jobs)| ==>
        IndexOf(OverrideFlags(jobs)[j], meta.iuse) < IndexOf(OverrideFlags(jobs)[k], meta.iuse))
    ensures |meta.iuse| > 0 && Pow2(|meta.iuse|) > args.maxUseCombinations ==>
      (|OverrideFlags(jobs)| == Cap(args.maxUseCombinations) ||
       forall k :: 0 <= k < |draws| && valid(RequiredUseText(meta, args), Toggles(draws[k], meta.iuse)) ==>
         Toggles(draws[k], meta.iuse) in OverrideFlags(jobs))
    ensures |meta.iuse| > 0 && Pow2(|meta.iuse|) > args.maxUseCombinations ==>
      forall c :: c in OverrideFlags(jobs) ==> IndexOf(c, meta.iuse) in draws
  {
    var combos := PackageCombinations(meta, args, valid, draws);
    assert forall k :: 0 <= k < |combos| ==> combos[k] != [] by {
      forall k | 0 <= k < |combos| ensures combos[k] != [] {
        assert combos[k] in combos;
      }
    }
    jobs := PlanJobs(combos, meta.hasTests, args.testFeatureScope);
    PlanJobsFacts(combos, meta.hasTests, args.testFeatureScope);
  }
}

=== FILE: runner.dfy ===
/** What `run_testing` and `pkg_testing_tool` (src/pkg_testing_tool/main.py)
    compute around each build: the FEATURES value, the override lines written
    for a job, the recorded result, and the failure list and exit status of
    the whole run. The emerge process itself is outside the model: its exit
    code is an input. */
module Runner {
  import opened Util
  import opened Text
  import opened Planner

  /** The features every build enables, as words. */
  const FeatureWords: seq<string> := ["multilib-strict", "collision-protect", "sandbox", "userpriv", "usersandbox"]

  /** The features every build enables, as the FEATURES text
      "multilib-strict collision-protect sandbox userpriv usersandbox". */
  const Features: string := Join(FeatureWords)

  lemma FeatureWordsSpaceFree()
    ensures forall k :: 0 <= k < |FeatureWords| ==> SpaceFree(FeatureWords[k])
  {
    assert ' ' !in "multilib-strict";
    assert ' ' !in "collision-protect";
    assert ' ' !in "sandbox";
    assert ' ' !in "userpriv";
    assert ' ' !in "usersandbox";
  }

  /** The FEATURES value of the build's environment: the inherited value, if
      any, followed by the fixed features. */
  function ComposeFeatures(inherited: Option<string>): string {
    match inherited
    case Some(existing) => existing + " " + Features
    case None => Features
  }

  /** Split on spaces, the composed FEATURES are the inherited words followed by
      the fixed ones: nothing inherited is lost and every fixed feature is on. */
  lemma ComposeFeaturesWords(inherited: Option<string>)
    ensures Fields(ComposeFeatures(inherited)) ==
      (match inherited
       case Some(existing) => Fields(existing) + FeatureWords
       case None => FeatureWords)
  {
    FeatureWordsSpaceFree();
    FieldsOfJoin(FeatureWords);
    if inherited.Some? {
      FieldsConcat(inherited.value, Features);
    }
  }

  /** The atom a `package.use` line applies to: every package for the global
      scope, the package's own atom otherwise. */
  function UseScopePrefix(scope: UseFlagsScope, atom: string): string {
    if scope == Global then "*/*" else atom
  }

  /** The `package.use` line of a job: only written when the job overrides flags. */
  function PackageUseLine(scope: UseFlagsScope, atom: string, flags: seq<string>): (line: Option<string>)
    ensures line.None? <==> |flags| == 0
  {
    if |flags| == 0 then None
    else Some(UseScopePrefix(scope, atom) + " " + Join(flags) + "\n")
  }

  /** A `package.use` line is one newline-terminated line whose space-separated
      words are the scope atom followed by exactly the job's flags. */
  lemma PackageUseLineParses(scope: UseFlagsScope, atom: string, flags: seq<string>)
    requires |flags| > 0
    requires SpaceFree(atom)
    requires forall k :: 0 <= k < |flags| ==> SpaceFree(flags[k])
    ensures var line := PackageUseLine(scope, atom, flags).value;
      && |line| > 0 && line[|line| - 1] == '\n'
      && Fields(line[..|line| - 1]) == [UseScopePrefix(scope, atom)] + flags
      && (Fields(line[..|line| - 1])[0] == "*/*" <==> scope == Global || atom == "*/*")
  {
    var prefix := UseScopePrefix(scope, atom);
    var line := PackageUseLine(scope, atom, flags).value;
    var body := prefix + " " + Join(flags);
    assert line == body + "\n";
    assert line[..|line| - 1] == body;
    assert SpaceFree(prefix);
    FieldsOfWord(prefix);
    FieldsConcat(prefix, Join(flags));
    FieldsOfJoin(flags);
  }

  /** The `env` file of a test job: it switches the test phase on. */
  const TestEnv: string := "FEATURES=\"test\"\n"

  /** The contents of the three override files of one job. */
  datatype Overrides = Overrides(env: string, packageEnv: string, packageUse: Option<string>)

  /** The override files `run_testing` writes before a build: the `env` file
      turns on the test phase for test jobs, `package.env` binds it to the
      package, `package.use` carries the job's flags. `envFileName` is the
      name of the temporary `env` file. */
  function JobOverrides(meta: Metadata, scope: UseFlagsScope, job: Job, envFileName: string): (o: Overrides)
    ensures o.env != "" <==> job.testFeature
    ensures job.testFeature ==> o.env == TestEnv
    ensures o.packageUse.None? <==> job.flags == []
    ensures o.packageUse == PackageUseLine(scope, meta.atom, job.flags)
    ensures StartsWith(o.packageEnv, meta.cp + " ")
  {
    Overrides(
      if job.testFeature then TestEnv else "",
      meta.cp + " " + envFileName + "\n",
      PackageUseLine(scope, meta.atom, job.flags))
  }

  /** Read back, the `package.env` line binds the package's `cp` to the `env`
      file, and the `package.use` line (when there is one) names the scope
      atom and then exactly the job's flags. */
  lemma JobOverridesParse(meta: Metadata, scope: UseFlagsScope, job: Job, envFileName: string)
    requires SpaceFree(meta.cp) && SpaceFree(envFileName) && SpaceFree(meta.atom)
    requires forall k :: 0 <= k < |job.flags| ==> SpaceFree(job.flags[k])
    ensures var o := JobOverrides(meta, scope, job, envFileName);
      && |o.packageEnv| > 0 && o.packageEnv[|o.packageEnv| - 1] == '\n'
      && Fields(o.packageEnv[..|o.packageEnv| - 1]) == [meta.cp, envFileName]
      && (job.flags != [] ==>
           var line := o.packageUse.value;
           Fields(line[..|line| - 1]) == [UseScopePrefix(scope, meta.atom)] + job.flags)
  {
    var o := JobOverrides(meta, scope, job, envFileName);
    assert o.packageEnv[..|o.packageEnv| - 1] == meta.cp + " " + envFileName;
    FieldsOfWord(meta.cp);
    FieldsOfWord(envFileName);
    FieldsConcat(meta.cp, envFileName);
    if job.flags != [] {
      PackageUseLineParses(scope, meta.atom, job.flags);
    }
  }

  /** The emerge invocation of a build: fixed options, the package's `cp`
      excluded from binary packages, and its atom as the only target. */
  function EmergeCommand(meta: Metadata): (cmd: seq<string>)
    ensures |cmd| == 11 && cmd[0] == "emerge"
    ensures cmd[5..7] == ["--usepkg-exclude", meta.cp]
    ensures cmd[|cmd| - 1] == meta.atom
  {
    ["emerge", "--verbose", "y", "--autounmask", "n", "--usepkg-exclude", meta.cp,
     "--deep", "--backtrack", "300", meta.atom]
  }

  /** The recorded result of one build (timestamps and portage settings left out). */
  datatype JobResult = JobResult(
    useFlags: string,
    exitCode: int,
    emergeCmdline: string,
    testFeatureToggle: bool,
    atom: string)

  /** The result `run_testing` returns for `job`, whose build exited with `exitCode`. */
  function RunResult(meta: Metadata, job: Job, exitCode: int): JobResult {
    JobResult(Join(job.flags), exitCode, Join(EmergeCommand(meta)), job.testFeature, meta.atom)
  }

  /** The recorded `use_flags` identify the job's flags: empty for a default
      run, and splitting back into exactly the flags otherwise. */
  lemma RecordedUseFlags(meta: Metadata, job: Job, exitCode: int)
    requires forall k :: 0 <= k < |job.flags| ==> SpaceFree(job.flags[k])
    ensures var r := RunResult(meta, job, exitCode);
      && (r.useFlags == "" <==> job.flags == [] || job.flags == [""])
      && (job.flags != [] ==> Fields(r.useFlags) == job.flags)
      && r.exitCode == exitCode && r.testFeatureToggle == job.testFeature
  {
    if job.flags != [] {
      FieldsOfJoin(job.flags);
      if Join(job.flags) == "" {
        assert Fields("") == [""];
      }
    }
  }

  /** The recorded `emerge_cmdline` of a package with space-free `cp` and
      atom splits back into the command: `--usepkg-exclude` followed by `cp`,
      the atom last, and every other word the same for every package and job.
      The USE flags never appear on it. */
  lemma RecordedEmergeCommand(meta: Metadata, job: Job, exitCode: int, other: Metadata)
    requires SpaceFree(meta.cp) && SpaceFree(meta.atom)
    ensures var cmd := Fields(RunResult(meta, job, exitCode).emergeCmdline);
      && cmd == EmergeCommand(meta)
      && cmd[5..7] == ["--usepkg-exclude", meta.cp]
      && cmd[|cmd| - 1] == meta.atom
      && (forall k :: 0 <= k < |cmd| && k != 6 && k != |cmd| - 1 ==> cmd[k] == EmergeCommand(other)[k])
  {
    var cmd := EmergeCommand(meta);
    forall k | 0 <= k < |cmd|
      ensures SpaceFree(cmd[k])
    {
      if k != 6 && k != 10 {
        assert cmd[k] == EmergeCommand(other)[k];
      }
    }
    FieldsOfJoin(cmd);
  }

  /** Runs the jobs in order, the k-th build exiting with `exitCodes[k]`. */
  function Execute(meta: Metadata, jobs: seq<Job>, exitCodes: seq<int>): (results: seq<JobResult>)
    requires |exitCodes| == |jobs|
    ensures |results| == |jobs|
    ensures forall k :: 0 <= k < |jobs| ==> results[k] == RunResult(meta, jobs[k], exitCodes[k])
  {
    if |jobs| == 0 then []
    else [RunResult(meta, jobs[0], exitCodes[0])] + Execute(meta, jobs[1..], exitCodes[1..])
  }

  /** The failed runs, in order. */
  function Failures(results: seq<JobResult>): (failures: seq<JobResult>)
    ensures IsSubsequence(failures, results)
    ensures forall k :: 0 <= k < |failures| ==> failures[k].exitCode != 0
    ensures forall k :: 0 <= k < |results| && results[k].exitCode != 0 ==> results[k] in failures
  {
    if |results| == 0 then []
    else
      var rest := Failures(results[1..]);
      assert forall k :: 1 <= k < |results| ==> results[k] == results[1..][k - 1];
      if results[0].exitCode != 0 then [results[0]] + rest else rest
  }

  /** Each failed result appears among the failures as often as among the
      results, and nothing else appears at all. */
  lemma {:induction false} FailuresMultiplicity(results: seq<JobResult>)
    ensures forall x :: multiset(Failures(results))[x] == if x.exitCode != 0 then multiset(results)[x] else 0
  {
    if |results| > 0 {
      FailuresMultiplicity(results[1..]);
      var head := if results[0].exitCode != 0 then [results[0]] else [];
      assert Failures(results) == head + Failures(results[1..]);
      assert multiset(results) == multiset([results[0]]) + multiset(results[1..]) by {
        assert results == [results[0]] + results[1..];
      }
    }
  }

  /** Results are gathered package by package; their failures are too. */
  lemma {:induction false} FailuresAppend(a: seq<JobResult>, b: seq<JobResult>)
    ensures Failures(a + b) == Failures(a) + Failures(b)
  {
    if |a| > 0 {
      assert (a + b)[0] == a[0];
      assert (a + b)[1..] == a[1..] + b;
      FailuresAppend(a[1..], b);
      var head := if a[0].exitCode != 0 then [a[0]] else [];
      assert Failures(a + b) == head + Failures(a[1..] + b);
      assert Failures(a) == head + Failures(a[1..]);
    } else {
      assert a + b == b;
    }
  }

  /** The process exit status after all builds. */
  function ExitStatus(results: seq<JobResult>): (status: int)
    ensures status == 0 || status == 1
    ensures status == 1 <==> exists k :: 0 <= k < |results| && results[k].exitCode != 0
  {
    var failures := Failures(results);
    SubsequenceMembers(failures, results);
    assert |failures| > 0 ==> failures[0] in failures;
    if |failures| > 0 then 1 else 0
  }

  /** Exit status over package batches: the run fails when any batch has a failure. */
  lemma ExitStatusAppend(a: seq<JobResult>, b: seq<JobResult>)
    ensures ExitStatus(a + b) == if ExitStatus(a) == 1 || ExitStatus(b) == 1 then 1 else 0
  {
    FailuresAppend(a, b);
  }

  /** The override directories under `/etc/portage` a run needs: the two
      `pkg_testing_tool` writes before testing, then the three every build
      writes. Every package gets at least one build, so a run opens all five. */
  const RunDirectories: seq<string> := ["package.accept_keywords", "package.unmask", "env", "package.env", "package.use"]

  /** `get_etc_portage_tmp_file` demands each override directory exist: the
      first missing one ends the run with status 1 before any build. */
  function MissingDirectory(existing: set<string>, needed: seq<string>): (missing: Option<string>)
    ensures missing.None? <==> forall k :: 0 <= k < |needed| ==> needed[k] in existing
    ensures missing.Some? ==>
      exists k :: 0 <= k < |needed| && needed[k] == missing.value && needed[k] !in existing &&
        forall j :: 0 <= j < k ==> needed[j] in existing
  {
    if |needed| == 0 then None
    else if needed[0] !in existing then Some(needed[0])
    else
      var rest := MissingDirectory(existing, needed[1..]);
      assert forall k :: 1 <= k < |needed| ==> needed[k] == needed[1..][k - 1];
      if rest.Some? then
        var k :| 0 <= k < |needed[1..]| && needed[1..][k] == rest.value && needed[1..][k] !in existing &&
          forall j :: 0 <= j < k ==> needed[1..][j] in existing;
        assert needed[k + 1] == rest.value;
        rest
      else rest
  }

  /** The exit status of a whole run: 1 when an override directory is missing
      (the run ends at the first one), otherwise the status of the builds. */
  function RunExitStatus(existing: set<string>, results: seq<JobResult>): (status: int)
    ensures status == 0 || status == 1
    ensures status == 0 <==>
      (forall k :: 0 <= k < |RunDirectories| ==> RunDirectories[k] in existing) &&
      (forall k :: 0 <= k < |results| ==> results[k].exitCode == 0)
  {
    if MissingDirectory(existing, RunDirectories).Some? then 1 else ExitStatus(results)
  }
}

=== FILE: sampler.dfy ===
/** `get_use_combinations` (src/pkg_testing_tool/use.py): the USE-flag
    combinations to build, either every valid one of the whole space or a
    bounded random sample of it. The REQUIRED_USE check
    (`portage.dep.check_required_use`) is the uninterpreted `valid`, applied to
    the space-joined constraint text and a candidate assignment; the random
    draws of `random.randint` are an arbitrary stream `draws`. */
module Sampler {
  import opened Util
  import opened Text
  import opened Codec

  /** The REQUIRED_USE verdict on (constraint text, assignment tokens). */
  type Constraint = (string, seq<string>) -> bool

  /** The indices `0, 1, ..., n-1` in ascending order. */
  function Range(n: nat): (r: seq<nat>)
    ensures |r| == n
    ensures forall k :: 0 <= k < n ==> r[k] == k
  {
    if n == 0 then [] else Range(n - 1) + [n - 1]
  }

  /** `max_use_combinations` as a cap on a length: a negative value admits nothing. */
  function Cap(max: int): nat {
    if max < 0 then 0 else max
  }

  /** The assignments of `indices`, in that order, that pass the constraint. */
  function Keep(valid: Constraint, constraint: string, iuse: seq<string>, indices: seq<nat>): seq<seq<string>> {
    if |indices| == 0 then []
    else
      var last := indices[|indices| - 1];
      Keep(valid, constraint, iuse, indices[..|indices| - 1]) +
      (if valid(constraint, Toggles(last, iuse)) then [Toggles(last, iuse)] else [])
  }

  /** What `Keep` keeps: passing assignments of the given indices, each one
      decoding to an index it was given, and every passing index represented. */
  lemma {:induction false} KeepMeaning(valid: Constraint, constraint: string, iuse: seq<string>, indices: seq<nat>)
    requires forall k :: 0 <= k < |indices| ==> indices[k] < Pow2(|iuse|)
    ensures var r := Keep(valid, constraint, iuse, indices);
      && |r| <= |indices|
      && (forall c :: c in r ==> IsAssignment(c, iuse) && valid(constraint, c) && IndexOf(c, iuse) in indices)
      && (forall i :: i in indices ==> (valid(constraint, Toggles(i, iuse)) <==> Toggles(i, iuse) in r))
  {
    if |indices| > 0 {
      var init := indices[..|indices| - 1];
      var last := indices[|indices| - 1];
      KeepMeaning(valid, constraint, iuse, init);
      assert indices == init + [last];
      DecodeEncode(last, iuse);
    }
  }

  /** Keeping one more index appends its assignment when it passes. */
  lemma KeepSnoc(valid: Constraint, constraint: string, iuse: seq<string>, indices: seq<nat>, index: nat)
    requires forall k :: 0 <= k < |indices| ==> indices[k] < Pow2(|iuse|)
    requires index < Pow2(|iuse|)
    ensures Keep(valid, constraint, iuse, indices + [index]) ==
      Keep(valid, constraint, iuse, indices) +
      (if valid(constraint, Toggles(index, iuse)) then [Toggles(index, iuse)] else [])
  {
    assert (indices + [index])[..|indices|] == indices;
  }

  /** Kept assignments follow the order of their indices. */
  lemma {:induction false} KeepAscending(valid: Constraint, constraint: string, iuse: seq<string>, indices: seq<nat>)
    requires forall k :: 0 <= k < |indices| ==> indices[k] < Pow2(|iuse|)
    requires forall j, k :: 0 <= j < k < |indices| ==> indices[j] < indices[k]
    ensures var r := Keep(valid, constraint, iuse, indices);
      forall j, k :: 0 <= j < k < |r| ==> IndexOf(r[j], iuse) < IndexOf(r[k], iuse)
  {
    if |indices| > 0 {
      var init := indices[..|indices| - 1];
      var last := indices[|indices| - 1];
      var kept := Keep(valid, constraint, iuse, init);
      var r := Keep(valid, constraint, iuse, indices);
      KeepSnoc(valid, constraint, iuse, init, last);
      assert indices == init + [last];
      KeepAscending(valid, constraint, iuse, init);
      KeepMeaning(valid, constraint, iuse, init);
      DecodeEncode(last, iuse);
      forall j, k | 0 <= j < k < |r|
        ensures IndexOf(r[j], iuse) < IndexOf(r[k], iuse)
      {
        if k == |kept| {
          assert r[j] == kept[j] && r[j] in kept;
          var p :| 0 <= p < |init| && init[p] == IndexOf(r[j], iuse);
          assert indices[p] < indices[|indices| - 1];
        } else {
          assert r[j] == kept[j] && r[k] == kept[k];
        }
      }
    }
  }

  /** Distinct indices keep distinct assignments. */
  lemma {:induction false} KeepDistinct(valid: Constraint, constraint: string, iuse: seq<string>, indices: seq<nat>)
    requires forall k :: 0 <= k < |indices| ==> indices[k] < Pow2(|iuse|)
    requires NoDuplicates(indices)
    ensures NoDuplicates(Keep(valid, constraint, iuse, indices))
  {
    if |indices| > 0 {
      var init := indices[..|indices| - 1];
      var last := indices[|indices| - 1];
      var kept := Keep(valid, constraint, iuse, init);
      KeepDistinct(valid, constraint, iuse, init);
      KeepMeaning(valid, constraint, iuse, init);
      DecodeEncode(last, iuse);
      assert forall p :: 0 <= p < |init| ==> init[p] == indices[p] != last;
      assert Toggles(last, iuse) !in kept;
    }
  }

  /** Over the whole space, `Keep` holds exactly the passing assignments, in
      ascending index order. */
  lemma KeepWholeSpace(valid: Constraint, constraint: string, iuse: seq<string>)
    ensures var r := Keep(valid, constraint, iuse, Range(Pow2(|iuse|)));
      && (forall i :: 0 <= i < Pow2(|iuse|) ==> (valid(constraint, Toggles(i, iuse)) <==> Toggles(i, iuse) in r))
      && (forall j, k :: 0 <= j < k < |r| ==> IndexOf(r[j], iuse) < IndexOf(r[k], iuse))
      && |r| <= Pow2(|iuse|)
      && (forall c :: c in r ==> IsAssignment(c, iuse) && valid(constraint, c))
  {
    var indices := Range(Pow2(|iuse|));
    KeepMeaning(valid, constraint, iuse, indices);
    KeepAscending(valid, constraint, iuse, indices);
    forall i | 0 <= i < Pow2(|iuse|)
      ensures i in indices
    {
      assert indices[i] == i;
    }
  }

  /** Trying the next index of the ascending scan appends its assignment
      exactly when it passes. */
  lemma KeepRangeStep(valid: Constraint, constraint: string, iuse: seq<string>, index: nat)
    requires index < Pow2(|iuse|)
    ensures Keep(valid, constraint, iuse, Range(index + 1)) ==
      Keep(valid, constraint, iuse, Range(index)) +
      (if valid(constraint, Toggles(index, iuse)) then [Toggles(index, iuse)] else [])
  {
    assert Range(index + 1) == Range(index) + [index];
    KeepSnoc(valid, constraint, iuse, Range(index), index);
  }

  /** Exhaustive mode (`2**len(iuse) <= max_use_combinations`): every index of
      the space in ascending order, keeping the assignments that pass. */
  method Exhaustive(valid: Constraint, constraint: string, iuse: seq<string>) returns (combos: seq<seq<string>>)
    ensures combos == Keep(valid, constraint, iuse, Range(Pow2(|iuse|)))
  {
    var total := Pow2(|iuse|);
    combos := [];
    var index := 0;
    while index < total
      invariant index <= total
      invariant combos == Keep(valid, constraint, iuse, Range(index))
    {
      var flags := Toggles(index, iuse);
      KeepRangeStep(valid, constraint, iuse, index);
      if valid(constraint, flags) {
        combos := combos + [flags];
      }
      index := index + 1;
    }
  }

  /** The outcome of a random-mode run: the kept assignments, the indices the
      constraint was evaluated on (in evaluation order), and how many draws
      were used. */
  datatype Sample = Sample(combos: seq<seq<string>>, evaluated: seq<nat>, consumed: nat)

  /** What a stopped random run guarantees, from how it stopped: the
      evaluated list holds each drawn index once and nothing else, never more
      than the space; it is short of the space only when the cap was reached
      or the stream ran out, and a stream that covers the space cannot run out
      first. */
  lemma SampleCoverage(draws: seq<nat>, max: int, total: nat, s: Sample)
    requires s.consumed <= |draws|
    requires s.evaluated == FirstOccurrences(draws[..s.consumed])
    requires forall k :: 0 <= k < |s.evaluated| ==> s.evaluated[k] < total
    requires |s.combos| <= Cap(max)
    requires s.consumed == |draws| || |s.combos| >= max || |s.evaluated| >= total
    ensures NoDuplicates(s.evaluated)
    ensures forall i :: i in s.evaluated <==> i in draws[..s.consumed]
    ensures |s.evaluated| <= total
    ensures s.consumed < |draws| ==> |s.combos| == Cap(max) || |s.evaluated| == total
    ensures (forall i :: 0 <= i < total ==> i in draws) ==> |s.combos| == Cap(max) || |s.evaluated| == total
    ensures |s.evaluated| == total ==> forall i :: 0 <= i < total ==> i in s.evaluated
  {
    DistinctBounded(s.evaluated, total);
    if |s.evaluated| == total {
      FullCover(s.evaluated, total);
    }
    if s.consumed == |draws| && (forall i :: 0 <= i < total ==> i in draws) {
      assert draws[..s.consumed] == draws;
      CoverLength(s.evaluated, total);
    }
  }

  /** One draw of the random loop: an index already checked leaves the state
      as it is; a new one joins `checked`, is appended to the evaluated list,
      and its assignment is kept when it passes. Either way the evaluated list
      stays the first occurrences of the draws so far. */
  lemma DrawStep(valid: Constraint, constraint: string, iuse: seq<string>, draws: seq<nat>,
                 consumed: nat, evaluated: seq<nat>, checked: set<nat>)
    requires consumed < |draws|
    requires forall k :: 0 <= k < |draws| ==> draws[k] < Pow2(|iuse|)
    requires evaluated == FirstOccurrences(draws[..consumed])
    requires forall i :: i in checked <==> i in evaluated
    requires |checked| == |evaluated|
    ensures draws[consumed] in checked ==> evaluated == FirstOccurrences(draws[..consumed + 1])
    ensures draws[consumed] !in checked ==>
      var index := draws[consumed];
      && evaluated + [index] == FirstOccurrences(draws[..consumed + 1])
      && |checked + {index}| == |evaluated + [index]|
      && (forall i :: i in checked + {index} <==> i in evaluated + [index])
      && Keep(valid, constraint, iuse, evaluated + [index]) ==
         Keep(valid, constraint, iuse, evaluated) +
         (if valid(constraint, Toggles(index, iuse)) then [Toggles(index, iuse)] else [])
  {
    var index := draws[consumed];
    assert draws[..consumed + 1] == draws[..consumed] + [index];
    FirstOccurrencesSnoc(draws[..consumed], index);
    forall k | 0 <= k < |evaluated|
      ensures evaluated[k] < Pow2(|iuse|)
    {
      assert evaluated[k] in draws[..consumed];
    }
    KeepSnoc(valid, constraint, iuse, evaluated, index);
  }

  /** The evaluated indices of the random loop lie in the space. */
  lemma DrawnInSpace(draws: seq<nat>, consumed: nat, evaluated: seq<nat>, total: nat)
    requires consumed <= |draws|
    requires forall k :: 0 <= k < |draws| ==> draws[k] < total
    requires evaluated == FirstOccurrences(draws[..consumed])
    ensures forall k :: 0 <= k < |evaluated| ==> evaluated[k] < total
  {
    forall k | 0 <= k < |evaluated|
      ensures evaluated[k] < total
    {
      assert evaluated[k] in draws[..consumed];
    }
  }

  /** The guard of the random loop as it stands before draw `c`: fewer than
      `max` assignments kept and not every index checked, where the state is
      the one the first `c` draws produce. */
  predicate GuardBefore(valid: Constraint, constraint: string, iuse: seq<string>, max: int, draws: seq<nat>, c: nat)
    requires c <= |draws|
  {
    var evaluated := FirstOccurrences(draws[..c]);
    |Keep(valid, constraint, iuse, evaluated)| < max && |evaluated| < Pow2(|iuse|)
  }

  /** The guard held before every draw so far and holds before this one, so
      it held before every draw up to the next. */
  lemma GuardExtend(valid: Constraint, constraint: string, iuse: seq<string>, max: int, draws: seq<nat>, consumed: nat)
    requires consumed < |draws|
    requires forall c :: 0 <= c < consumed ==> GuardBefore(valid, constraint, iuse, max, draws, c)
    requires GuardBefore(valid, constraint, iuse, max, draws, consumed)
    ensures forall c :: 0 <= c < consumed + 1 ==> GuardBefore(valid, constraint, iuse, max, draws, c)
  {
  }

  /** How many draws the random loop uses, counting from draw `c`: up to the
      first draw before which its guard fails, or the whole stream. */
  function DrawsUsed(valid: Constraint, constraint: string, iuse: seq<string>, max: int, draws: seq<nat>, c: nat): (n: nat)
    requires c <= |draws|
    ensures c <= n <= |draws|
    decreases |draws| - c
  {
    if c == |draws| || !GuardBefore(valid, constraint, iuse, max, draws, c) then c
    else DrawsUsed(valid, constraint, iuse, max, draws, c + 1)
  }

  /** A run that passed the guard before each of the draws `c..n-1` and stopped
      at `n` (guard failing or stream exhausted) used exactly `DrawsUsed` draws. */
  lemma {:induction false} DrawsUsedFirstStop(valid: Constraint, constraint: string, iuse: seq<string>, max: int, draws: seq<nat>, c: nat, n: nat)
    requires c <= n <= |draws|
    requires forall j :: c <= j < n ==> GuardBefore(valid, constraint, iuse, max, draws, j)
    requires n == |draws| || !GuardBefore(valid, constraint, iuse, max, draws, n)
    ensures DrawsUsed(valid, constraint, iuse, max, draws, c) == n
    decreases n - c
  {
    if c < n {
      DrawsUsedFirstStop(valid, constraint, iuse, max, draws, c + 1, n);
    }
  }

  /** A run that stopped as the random loop does (the guard held before every
      draw used, and fails after the last unless the stream ran out) used
      `DrawsUsed` draws, so what it kept is determined by the stream: the
      passing assignments of the distinct draws up to the first stop, in
      first-draw order. */
  lemma SampleIsFirstStop(valid: Constraint, constraint: string, iuse: seq<string>, max: int, draws: seq<nat>, s: Sample)
    requires s.consumed <= |draws| && s.evaluated == FirstOccurrences(draws[..s.consumed])
    requires s.combos == Keep(valid, constraint, iuse, s.evaluated)
    requires forall c :: 0 <= c < s.consumed ==> GuardBefore(valid, constraint, iuse, max, draws, c)
    requires s.consumed == |draws| || |s.combos| >= max || |s.evaluated| >= Pow2(|iuse|)
    ensures s.consumed == DrawsUsed(valid, constraint, iuse, max, draws, 0)
    ensures s.combos == Keep(valid, constraint, iuse, FirstOccurrences(draws[..DrawsUsed(valid, constraint, iuse, max, draws, 0)]))
  {
    DrawsUsedFirstStop(valid, constraint, iuse, max, draws, 0, s.consumed);
  }

  /** The `while` loop of random mode: indices are drawn from `draws`; one
      already in `checked` is skipped without evaluation; the loop stops at
      `max` valid assignments, once every index has been checked, or (in the
      model only) when the stream runs out. */
  method DrawLoop(valid: Constraint, constraint: string, iuse: seq<string>, max: int, draws: seq<nat>)
    returns (s: Sample)
    requires forall k :: 0 <= k < |draws| ==> draws[k] < Pow2(|iuse|)
    ensures forall k :: 0 <= k < |s.evaluated| ==> s.evaluated[k] < Pow2(|iuse|)
    ensures s.combos == Keep(valid, constraint, iuse, s.evaluated)
    ensures s.consumed <= |draws| && s.evaluated == FirstOccurrences(draws[..s.consumed])
    ensures |s.combos| <= Cap(max)
    ensures s.consumed == |draws| || |s.combos| >= max || |s.evaluated| >= Pow2(|iuse|)
    ensures forall c :: 0 <= c < s.consumed ==> GuardBefore(valid, constraint, iuse, max, draws, c)
  {
    var total := Pow2(|iuse|);
    var combos: seq<seq<string>> := [];
    var evaluated: seq<nat> := [];
    var consumed := 0;
    var checked: set<nat> := {};
    while |combos| < max && |checked| < total && consumed < |draws|
      invariant consumed <= |draws|
      invariant forall i :: i in checked <==> i in evaluated
      invariant |checked| == |evaluated|
      invariant evaluated == FirstOccurrences(draws[..consumed])
      invariant combos == Keep(valid, constraint, iuse, evaluated)
      invariant |combos| <= Cap(max)
      invariant forall c :: 0 <= c < consumed ==> GuardBefore(valid, constraint, iuse, max, draws, c)
    {
      var index := draws[consumed];
      assert GuardBefore(valid, constraint, iuse, max, draws, consumed);
      GuardExtend(valid, constraint, iuse, max, draws, consumed);
      DrawStep(valid, constraint, iuse, draws, consumed, evaluated, checked);
      consumed := consumed + 1;
      if index in checked {
        continue;
      }
      checked := checked + {index};
      evaluated := evaluated + [index];
      var flags := Toggles(index, iuse);
      if valid(constraint, flags) {
        combos := combos + [flags];
      }
    }
    DrawnInSpace(draws, consumed, evaluated, total);
    s := Sample(combos, evaluated, consumed);
  }

  /** Random mode (`2**len(iuse) > max_use_combinations`): the draw loop and
      what it guarantees. Each drawn index is evaluated once, in the order of
      its first draw, and its assignment kept when it passes; the run ends
      short of the whole space only at `max` results or when the stream runs
      out, and a stream covering the space cannot run out first. */
  method RandomSample(valid: Constraint, constraint: string, iuse: seq<string>, max: int, draws: seq<nat>)
    returns (s: Sample)
    requires Pow2(|iuse|) > max
    requires forall k :: 0 <= k < |draws| ==> draws[k] < Pow2(|iuse|)
    ensures forall k :: 0 <= k < |s.evaluated| ==> s.evaluated[k] < Pow2(|iuse|)
    ensures s.combos == Keep(valid, constraint, iuse, s.evaluated)
    ensures NoDuplicates(s.evaluated)
    ensures s.consumed <= |draws| && s.evaluated == FirstOccurrences(draws[..s.consumed])
    ensures s.consumed <= |draws| && forall i :: i in s.evaluated <==> i in draws[..s.consumed]
    ensures |s.combos| <= Cap(max)
    ensures |s.evaluated| <= Pow2(|iuse|)
    ensures s.consumed < |draws| ==> |s.combos| == Cap(max) || |s.evaluated| == Pow2(|iuse|)
    ensures (forall i :: 0 <= i < Pow2(|iuse|) ==> i in draws) ==>
      |s.combos| == Cap(max) || |s.evaluated| == Pow2(|iuse|)
    ensures |s.evaluated| == Pow2(|iuse|) ==> forall i :: 0 <= i < Pow2(|iuse|) ==> i in s.evaluated
    ensures forall c :: 0 <= c < s.consumed ==> GuardBefore(valid, constraint, iuse, max, draws, c)
  {
    s := DrawLoop(valid, constraint, iuse, max, draws);
    SampleCoverage(draws, max, Pow2(|iuse|), s);
  }

  /** The kept assignments of a stopped random run are passing assignments of
      drawn indices; short of the cap they include every drawn passing one,
      and every passing one of the space when the stream covers it. */
  lemma SampleReach(valid: Constraint, constraint: string, iuse: seq<string>, max: int, draws: seq<nat>, s: Sample)
    requires forall k :: 0 <= k < |draws| ==> draws[k] < Pow2(|iuse|)
    requires forall k :: 0 <= k < |s.evaluated| ==> s.evaluated[k] < Pow2(|iuse|)
    requires s.combos == Keep(valid, constraint, iuse, s.evaluated)
    requires s.consumed <= |draws| && forall i :: i in s.evaluated <==> i in draws[..s.consumed]
    requires s.consumed < |draws| ==> |s.combos| == Cap(max) || |s.evaluated| == Pow2(|iuse|)
    requires (forall i :: 0 <= i < Pow2(|iuse|) ==> i in draws) ==>
      |s.combos| == Cap(max) || |s.evaluated| == Pow2(|iuse|)
    requires |s.evaluated| == Pow2(|iuse|) ==> forall i :: 0 <= i < Pow2(|iuse|) ==> i in s.evaluated
    ensures forall c :: c in s.combos ==> IsAssignment(c, iuse) && valid(constraint, c) && IndexOf(c, iuse) in draws
    ensures |s.combos| == Cap(max) ||
      forall k :: 0 <= k < |draws| && valid(constraint, Toggles(draws[k], iuse)) ==> Toggles(draws[k], iuse) in s.combos
    ensures (forall i :: 0 <= i < Pow2(|iuse|) ==> i in draws) ==>
      (|s.combos| == Cap(max) ||
       forall i :: 0 <= i < Pow2(|iuse|) ==> (valid(constraint, Toggles(i, iuse)) <==> Toggles(i, iuse) in s.combos))
  {
    KeepMeaning(valid, constraint, iuse, s.evaluated);
    assert forall i :: i in s.evaluated ==> i in draws;
    if |s.combos| != Cap(max) {
      if s.consumed == |draws| {
        assert draws[..s.consumed] == draws;
      }
      assert forall k :: 0 <= k < |draws| ==> draws[k] in s.evaluated;
    }
  }

  /** The random branch of `get_use_combinations`: the draw loop's kept
      assignments. They are passing assignments of drawn indices, no two alike,
      at most `max`; short of `max` they include every drawn passing one. */
  method RandomCombinations(valid: Constraint, constraint: string, iuse: seq<string>, max: int, draws: seq<nat>)
    returns (combos: seq<seq<string>>)
    requires Pow2(|iuse|) > max
    requires forall k :: 0 <= k < |draws| ==> draws[k] < Pow2(|iuse|)
    ensures forall c :: c in combos ==> IsAssignment(c, iuse) && valid(constraint, c) && IndexOf(c, iuse) in draws
    ensures NoDuplicates(combos)
    ensures |combos| <= Cap(max)
    ensures |combos| == Cap(max) ||
      forall k :: 0 <= k < |draws| && valid(constraint, Toggles(draws[k], iuse)) ==> Toggles(draws[k], iuse) in combos
    ensures (forall i :: 0 <= i < Pow2(|iuse|) ==> i in draws) ==>
      (|combos| == Cap(max) ||
       forall i :: 0 <= i < Pow2(|iuse|) ==> (valid(constraint, Toggles(i, iuse)) <==> Toggles(i, iuse) in combos))
  {
    var sample := RandomSample(valid, constraint, iuse, max, draws);
    combos := sample.combos;
    KeepDistinct(valid, constraint, iuse, sample.evaluated);
    SampleReach(valid, constraint, iuse, max, draws, sample);
  }

  /** `get_use_combinations(iuse, ruse, max_use_combinations)`: every result is
      a constraint-passing assignment of `iuse`, no two alike, at most `max` of
      them; in exhaustive mode they are exactly the passing assignments of the
      whole space, in ascending index order. */
  method UseCombinations(valid: Constraint, iuse: seq<string>, ruse: seq<string>, max: int, draws: seq<nat>)
    returns (combos: seq<seq<string>>)
    requires forall k :: 0 <= k < |draws| ==> draws[k] < Pow2(|iuse|)
    ensures forall c :: c in combos ==> IsAssignment(c, iuse) && valid(Join(ruse), c)
    ensures NoDuplicates(combos)
    ensures |combos| <= Cap(max)
    ensures Pow2(|iuse|) <= max ==>
      forall i :: 0 <= i < Pow2(|iuse|) ==> (valid(Join(ruse), Toggles(i, iuse)) <==> Toggles(i, iuse) in combos)
    ensures Pow2(|iuse|) <= max ==>
      forall j, k :: 0 <= j < k < |combos| ==> IndexOf(combos[j], iuse) < IndexOf(combos[k], iuse)
    ensures Pow2(|iuse|) > max ==>
      (|combos| == Cap(max) ||
       forall k :: 0 <= k < |draws| && valid(Join(ruse), Toggles(draws[k], iuse)) ==> Toggles(draws[k], iuse) in combos)
    ensures Pow2(|iuse|) > max && (forall i :: 0 <= i < Pow2(|iuse|) ==> i in draws) ==>
      (|combos| == Cap(max) ||
       forall i :: 0 <= i < Pow2(|iuse|) ==> (valid(Join(ruse), Toggles(i, iuse)) <==> Toggles(i, iuse) in combos))
    ensures Pow2(|iuse|) > max ==> forall c :: c in combos ==> IndexOf(c, iuse) in draws
  {
    var total := Pow2(|iuse|);
    var constraint := Join(ruse);
    if total > max {
      combos := RandomCombinations(valid, constraint, iuse, max, draws);
    } else {
      combos := Exhaustive(valid, constraint, iuse);
      KeepMeaning(valid, constraint, iuse, Range(total));
      KeepWholeSpace(valid, constraint, iuse);
    }
  }
}

=== FILE: text.dfy ===
/** String helpers with Python's semantics: `" ".join(xs)`, `s.split(" ")`,
    `str.startswith` and the code-point ordering `sorted()` uses on `str`. */
module Text {

  /** `" ".join(xs)`. */
  function Join(xs: seq<string>): string {
    if |xs| == 0 then ""
    else if |xs| == 1 then xs[0]
    else xs[0] + " " + Join(xs[1..])
  }

  /** `s.split(" ")`: the pieces between single spaces, empty pieces kept. */
  function Fields(s: string): (r: seq<string>)
    ensures |r| >= 1
  {
    if |s| == 0 then [""]
    else if s[0] == ' ' then [""] + Fields(s[1..])
    else
      var rest := Fields(s[1..]);
      [[s[0]] + rest[0]] + rest[1..]
  }

  predicate SpaceFree(s: string) {
    ' ' !in s
  }

  /** `s.startswith(p)`. */
  predicate StartsWith(s: string, p: string) {
    p <= s
  }

  /** Python's `a <= b` on `str`: lexicographic by code point, a proper prefix first. */
  predicate LexLe(a: string, b: string)
    decreases |a|
  {
    |a| == 0 || (|b| > 0 && (a[0] < b[0] || (a[0] == b[0] && LexLe(a[1..], b[1..]))))
  }

  /** Every element is `<=` every later one. */
  predicate Sorted(s: seq<string>) {
    forall i, j :: 0 <= i < j < |s| ==> LexLe(s[i], s[j])
  }

  lemma {:induction false} JoinAppend(xs: seq<string>, e: string)
    ensures Join(xs + [e]) == if |xs| == 0 then e else Join(xs) + " " + e
  {
    if |xs| >= 2 {
      assert (xs + [e])[1..] == xs[1..] + [e];
      JoinAppend(xs[1..], e);
    } else if |xs| == 1 {
      assert (xs + [e])[1..] == [e];
    }
  }

  lemma {:induction false} FieldsOfWord(x: string)
    requires SpaceFree(x)
    ensures Fields(x) == [x]
  {
    if |x| > 0 {
      assert SpaceFree(x[1..]) by {
        forall k | 0 <= k < |x[1..]| ensures x[1..][k] != ' ' {
          assert x[1..][k] == x[k + 1];
        }
      }
      FieldsOfWord(x[1..]);
      assert [x[0]] + x[1..] == x;
    }
  }

  /** Splitting at a space separates the fields of both sides. */
  lemma {:induction false} FieldsConcat(a: string, b: string)
    ensures Fields(a + " " + b) == Fields(a) + Fields(b)
    decreases |a|
  {
    var s := a + " " + b;
    if |a| == 0 {
      assert s == " " + b;
      assert s[1..] == b;
    } else {
      assert s[0] == a[0];
      assert s[1..] == a[1..] + " " + b;
      FieldsConcat(a[1..], b);
    }
  }

  /** A space-join of space-free words splits back into the same words. */
  lemma {:induction false} FieldsOfJoin(xs: seq<string>)
    requires |xs| >= 1
    requires forall k :: 0 <= k < |xs| ==> SpaceFree(xs[k])
    ensures Fields(Join(xs)) == xs
  {
    FieldsOfWord(xs[0]);
    if |xs| > 1 {
      FieldsConcat(xs[0], Join(xs[1..]));
      FieldsOfJoin(xs[1..]);
      assert xs == [xs[0]] + xs[1..];
    }
  }

  lemma {:induction false} LexLeReflexive(a: string)
    ensures LexLe(a, a)
    decreases |a|
  {
    if |a| > 0 {
      LexLeReflexive(a[1..]);
    }
  }

  lemma {:induction false} LexLeTotal(a: string, b: string)
    ensures LexLe(a, b) || LexLe(b, a)
    decreases |a|
  {
    if |a| > 0 && |b| > 0 && a[0] == b[0] {
      LexLeTotal(a[1..], b[1..]);
    }
  }

  lemma {:induction false} LexLeTransitive(a: string, b: string, c: string)
    requires LexLe(a, b) && LexLe(b, c)
    ensures LexLe(a, c)
    decreases |a|
  {
    if |a| > 0 && a[0] == b[0] && b[0] == c[0] {
      LexLeTransitive(a[1..], b[1..], c[1..]);
    }
  }

  lemma {:induction false} LexLeAntisymmetric(a: string, b: string)
    requires LexLe(a, b) && LexLe(b, a)
    ensures a == b
    decreases |a|
  {
    if |a| > 0 {
      LexLeAntisymmetric(a[1..], b[1..]);
      assert a == [a[0]] + a[1..];
      assert b == [b[0]] + b[1..];
    }
  }
}

=== FILE: useflags.dfy ===
/** Normalisation of a package's IUSE list before it is explored: the default
    markers are stripped, flags that are not worth shuffling are dropped, and
    the rest is sorted (src/pkg_testing_tool/use.py). */
module UseFlags {
  import opened Util
  import opened Text

  /** `strip_use_flags` on one flag: one leading `+` or `-` default marker goes. */
  function StripFlag(flag: string): string
    requires |flag| > 0
  {
    if flag[0] == '+' || flag[0] == '-' then flag[1..] else flag
  }

  /** `strip_use_flags`. Python's `flag[0]` fails on an empty flag, so every flag
      must be non-empty (the IUSE text is split on whitespace, which never
      yields an empty token). */
  function Strip(flags: seq<string>): (r: seq<string>)
    requires forall k :: 0 <= k < |flags| ==> |flags[k]| > 0
    ensures |r| == |flags|
    ensures forall k :: 0 <= k < |flags| ==>
      if flags[k][0] == '+' || flags[k][0] == '-' then [flags[k][0]] + r[k] == flags[k]
      else r[k] == flags[k]
  {
    seq(|flags|, k requires 0 <= k < |flags| => StripFlag(flags[k]))
  }

  const IgnoredPrefixes: seq<string> := [
    "elibc_", "eglibc_", "video_cards_", "linguas_", "l10n_", "kernel_", "abi_",
    "python_target_", "python_targets_", "python_single_target_", "ruby_targets_",
    "cpu_flags_"
  ]

  const IgnoredNames: set<string> := {"debug", "doc", "test", "selinux", "split-usr", "pic"}

  /** A flag worth toggling: no ignored prefix and not an ignored name. */
  predicate Shuffleable(flag: string) {
    && (forall p :: p in IgnoredPrefixes ==> !StartsWith(flag, p))
    && flag !in IgnoredNames
  }

  /** `filter_out_use_flags`: the shuffleable flags, in their original order. */
  function Filter(flags: seq<string>): (r: seq<string>)
    ensures IsSubsequence(r, flags)
    ensures forall k :: 0 <= k < |r| ==> Shuffleable(r[k])
    ensures forall x :: multiset(r)[x] == if Shuffleable(x) then multiset(flags)[x] else 0
  {
    if |flags| == 0 then []
    else
      var rest := Filter(flags[1..]);
      assert flags == [flags[0]] + flags[1..];
      if Shuffleable(flags[0]) then [flags[0]] + rest else rest
  }

  /** Inserts `x` into a sorted list (one step of insertion sort). */
  function Insert(x: string, s: seq<string>): (r: seq<string>)
    ensures multiset(r) == multiset(s) + multiset{x}
  {
    if |s| == 0 then [x]
    else if LexLe(x, s[0]) then [x] + s
    else
      assert s == [s[0]] + s[1..];
      [s[0]] + Insert(x, s[1..])
  }

  lemma {:induction false} InsertSorted(x: string, s: seq<string>)
    requires Sorted(s)
    ensures Sorted(Insert(x, s))
  {
    if |s| == 0 {
    } else if LexLe(x, s[0]) {
      var r := [x] + s;
      forall i, j | 0 <= i < j < |r| ensures LexLe(r[i], r[j]) {
        if i == 0 && j > 1 {
          LexLeTransitive(x, s[0], s[j - 1]);
        }
      }
    } else {
      LexLeTotal(x, s[0]);
      var t := Insert(x, s[1..]);
      InsertSorted(x, s[1..]);
      var r := [s[0]] + t;
      forall j | 0 <= j < |t| ensures LexLe(s[0], t[j]) {
        assert t[j] in multiset(t);
        if t[j] != x {
          assert t[j] in multiset(s[1..]);
          var k :| 0 <= k < |s[1..]| && s[1..][k] == t[j];
          assert s[k + 1] == t[j];
        }
      }
      forall i, j | 0 <= i < j < |r| ensures LexLe(r[i], r[j]) {
        if i > 0 {
          assert r[i] == t[i - 1] && r[j] == t[j - 1];
        } else {
          assert r[j] == t[j - 1];
        }
      }
    }
  }

  /** `sorted(flags)`: an ordered permutation of the input. */
  function SortFlags(flags: seq<string>): (r: seq<string>)
    ensures Sorted(r)
    ensures multiset(r) == multiset(flags)
  {
    if |flags| == 0 then []
    else
      var rest := SortFlags(flags[1..]);
      InsertSorted(flags[0], rest);
      assert flags == [flags[0]] + flags[1..];
      Insert(flags[0], rest)
  }

  /** The heads of two ordered permutations of one list agree. */
  lemma SortedHeadsAgree(a: seq<string>, b: seq<string>)
    requires Sorted(a) && Sorted(b)
    requires |a| > 0 && multiset(a) == multiset(b)
    ensures |b| > 0 && a[0] == b[0]
  {
    assert a[0] in multiset(b);
    var k :| 0 <= k < |b| && b[k] == a[0];
    assert b[0] in multiset(a);
    var m :| 0 <= m < |a| && a[m] == b[0];
    LexLeReflexive(a[0]);
    assert LexLe(b[0], a[0]) by {
      if k > 0 {
        assert LexLe(b[0], b[k]);
      }
    }
    assert LexLe(a[0], b[0]) by {
      if m > 0 {
        assert LexLe(a[0], a[m]);
      }
    }
    LexLeAntisymmetric(a[0], b[0]);
  }

  lemma TailMultiset(a: seq<string>)
    requires |a| > 0
    ensures multiset(a[1..]) == multiset(a) - multiset{a[0]}
  {
    assert a == [a[0]] + a[1..];
  }

  /** There is only one ordered permutation of a list, so `SortFlags` is
      Python's `sorted` whatever algorithm computes it. */
  lemma {:induction false} SortedPermutationUnique(a: seq<string>, b: seq<string>)
    requires Sorted(a) && Sorted(b)
    requires multiset(a) == multiset(b)
    ensures a == b
  {
    if |a| == 0 {
      assert |b| == |multiset(b)| == 0;
    } else {
      SortedHeadsAgree(a, b);
      TailMultiset(a);
      TailMultiset(b);
      SortedPermutationUnique(a[1..], b[1..]);
      assert a == [a[0]] + a[1..];
      assert b == [b[0]] + b[1..];
    }
  }

  /** `get_package_flags` past the metadata query: the IUSE tokens are stripped,
      filtered and sorted; the REQUIRED_USE tokens are passed through. */
  function PackageFlags(iuseTokens: seq<string>, ruseTokens: seq<string>): (r: (seq<string>, seq<string>))
    requires forall k :: 0 <= k < |iuseTokens| ==> |iuseTokens[k]| > 0
    ensures Sorted(r.0)
    ensures forall x :: multiset(r.0)[x] == if Shuffleable(x) then multiset(Strip(iuseTokens))[x] else 0
    ensures r.1 == ruseTokens
  {
    (SortFlags(Filter(Strip(iuseTokens))), ruseTokens)
  }
}

=== FILE: util.dfy ===
/** Small generic helpers shared by the rest of the model: an optional value,
    order-preserving subsequences, duplicate-freedom and two counting facts
    about duplicate-free sequences of naturals (pigeonhole arguments). */
module Util {

  /** A value that may be absent (Python's `None`). */
  datatype Option<+T> = None | Some(value: T)

  /** `a` can be obtained from `b` by deleting elements, keeping the order. */
  predicate IsSubsequence<T(==)>(a: seq<T>, b: seq<T>)
    decreases |b|
  {
    |a| == 0 ||
    (|b| > 0 && ((a[0] == b[0] && IsSubsequence(a[1..], b[1..])) || IsSubsequence(a, b[1..])))
  }

  /** Every element of a subsequence is an element of the whole. */
  lemma {:induction false} SubsequenceMembers<T>(a: seq<T>, b: seq<T>)
    requires IsSubsequence(a, b)
    ensures forall x :: x in a ==> x in b
    decreases |b|
  {
    if |a| > 0 {
      if a[0] == b[0] && IsSubsequence(a[1..], b[1..]) {
        SubsequenceMembers(a[1..], b[1..]);
        assert forall x :: x in a ==> x == a[0] || x in a[1..];
      } else {
        SubsequenceMembers(a, b[1..]);
      }
    }
  }

  predicate NoDuplicates<T(==)>(s: seq<T>) {
    forall i, j :: 0 <= i < j < |s| ==> s[i] != s[j]
  }

  /** The elements of `s`, each once, in the order of their first appearance. */
  function FirstOccurrences(s: seq<nat>): (r: seq<nat>)
    ensures NoDuplicates(r)
    ensures forall x :: x in r <==> x in s
  {
    if |s| == 0 then []
    else
      var init := FirstOccurrences(s[..|s| - 1]);
      var last := s[|s| - 1];
      assert s == s[..|s| - 1] + [last];
      if last in init then init else init + [last]
  }

  /** One more element is listed only if it is new. */
  lemma FirstOccurrencesSnoc(s: seq<nat>, x: nat)
    ensures FirstOccurrences(s + [x]) ==
      if x in s then FirstOccurrences(s) else FirstOccurrences(s) + [x]
  {
    assert (s + [x])[..|s|] == s;
  }

  /** A duplicate-free sequence is its own list of first occurrences. */
  lemma {:induction false} FirstOccurrencesOfDistinct(s: seq<nat>)
    requires NoDuplicates(s)
    ensures FirstOccurrences(s) == s
  {
    if |s| > 0 {
      FirstOccurrencesOfDistinct(s[..|s| - 1]);
      assert s[|s| - 1] !in s[..|s| - 1];
      assert s == s[..|s| - 1] + [s[|s| - 1]];
    }
  }

  /** The sequence `s` without its element at position `p`. */
  function RemoveAt<T>(s: seq<T>, p: nat): (r: seq<T>)
    requires p < |s|
    ensures |r| == |s| - 1
  {
    s[..p] + s[p + 1..]
  }

  lemma RemoveAtMembership<T>(s: seq<T>, p: nat)
    requires p < |s|
    requires NoDuplicates(s)
    ensures NoDuplicates(RemoveAt(s, p))
    ensures forall x :: x in RemoveAt(s, p) <==> x in s && x != s[p]
  {
    var r := RemoveAt(s, p);
    assert forall k :: 0 <= k < |r| ==> r[k] == (if k < p then s[k] else s[k + 1]);
    forall x | x in s && x != s[p]
      ensures x in r
    {
      var k :| 0 <= k < |s| && s[k] == x;
      if k < p {
        assert r[k] == x;
      } else {
        assert r[k - 1] == x;
      }
    }
  }

  /** A duplicate-free sequence of naturals below `m` has at most `m` elements. */
  lemma {:induction false} DistinctBounded(s: seq<nat>, m: nat)
    requires NoDuplicates(s)
    requires forall k :: 0 <= k < |s| ==> s[k] < m
    ensures |s| <= m
    decreases m
  {
    if |s| == 0 {
    } else if m - 1 in s {
      var p :| 0 <= p < |s| && s[p] == m - 1;
      var r := RemoveAt(s, p);
      RemoveAtMembership(s, p);
      forall k | 0 <= k < |r|
        ensures r[k] < m - 1
      {
        assert r[k] in s;
      }
      DistinctBounded(r, m - 1);
    } else {
      assert s[0] < m;
      forall k | 0 <= k < |s|
        ensures s[k] < m - 1
      {
        assert s[k] != m - 1;
      }
      DistinctBounded(s, m - 1);
    }
  }

  /** A duplicate-free sequence holding every natural below `n` has at least `n` elements. */
  lemma {:induction false} CoverLength(s: seq<nat>, n: nat)
    requires NoDuplicates(s)
    requires forall i :: 0 <= i < n ==> i in s
    ensures |s| >= n
    decreases n
  {
    if n > 0 {
      assert n - 1 in s;
      var p :| 0 <= p < |s| && s[p] == n - 1;
      var r := RemoveAt(s, p);
      RemoveAtMembership(s, p);
      forall i | 0 <= i < n - 1
        ensures i in r
      {
        assert i in s;
      }
      CoverLength(r, n - 1);
    }
  }

  /** A duplicate-free sequence of exactly `n` naturals below `n` holds every one of them. */
  lemma {:induction false} FullCover(s: seq<nat>, n: nat)
    requires NoDuplicates(s)
    requires |s| == n
    requires forall k :: 0 <= k < |s| ==> s[k] < n
    ensures forall i :: 0 <= i < n ==> i in s
    decreases n
  {
    if n > 0 {
      if n - 1 in s {
        var p :| 0 <= p < |s| && s[p] == n - 1;
        var r := RemoveAt(s, p);
        RemoveAtMembership(s, p);
        forall k | 0 <= k < |r|
          ensures r[k] < n - 1
        {
          assert r[k] in s;
        }
        FullCover(r, n - 1);
      } else {
        forall k | 0 <= k < |s|
          ensures s[k] < n - 1
        {
          assert s[k] != n - 1;
        }
        DistinctBounded(s, n - 1);
        assert false;
      }
    }
  }
}
